=== FILE: README.md ===
# Wayback subdomain finder, modelled in Dafny

The tool (`wayback.py`) takes a domain, or a file of domains, and asks the
Wayback Machine's CDX index for archived URLs under `*.<domain>/*`. It pulls
the subdomains out of the answer and writes them, sorted and without repeats,
to `wayback_subs_<domain>.txt`. This project models its three pieces of logic
as pure functions over strings and sequences, and proves what they promise:

- **Domain validation** (`validate_domain`), module `Validate`. The anchored
  pattern `^(?:[a-zA-Z0-9-]+\.)+[a-zA-Z]{2,}$` is written out as the regular
  expression reads it (`MatchesPattern`). It is also written over the
  dot-separated labels (`HasDomainShape`): at least two labels, each label
  before the last one non-empty over `[A-Za-z0-9-]`, and a last label of two
  or more ASCII letters. The two readings are proved equal. Python's `$` also
  matches just before a final `"\n"`, and the validator accepts that case too.
- **Subdomain extraction** (wayback.py:45-57), module `Extract`.
  `re.search` of `([a-zA-Z0-9._-]+\.)?<escaped domain>` is modelled by hand.
  It finds the leftmost index where the pattern matches. There it takes the
  longest greedy group, and the bare domain when no group fits. The matches of
  the data rows are collected into a strictly ascending list: Python's
  `sorted(set(...))` under Python's `str` ordering (module `Order`).
- **The retry loop** of `fetch_wayback_subdomains`, module `Fetcher`. Each of
  up to three requests comes back as an abstract `Attempt`: a request
  exception, a received body with its parsed JSON (or a decode error), or any
  other exception. The function folds these into an ending plus counts of
  attempts and sleeps.
- **The driver loop** in `main`, module `Driver`. Domains are validated and
  fetched in order. The first invalid domain ends the whole run with exit
  status 1. Output files are overwritten, never appended to.

The network is a parameter: `net(k)` is the answer to attempt `k`; in a batch,
`net(i)(k)` is the answer to attempt `k` for the domain at index `i`. The
filesystem is a `map<string, string>` from file names to contents.

Three details of the code that the model keeps:

- After three request exceptions the code has slept three times:
  `time.sleep(2)` also runs after the last failure (wayback.py:60-62).
- A body counts as empty when `strip()` leaves `""` (wayback.py:35), so a body
  of whitespace alone is reported as an empty response.
- Whether a malformed JSON body ends the function or is retried depends on
  whether the `requests` library's decode error is one of its request
  exceptions. In recent versions it is, and the first `except` catches it. The
  model leaves this to the flag `decodeErrorRetried`.

## Model

| member | source | states |
|---|---|---|
| Validate.ValidateDomain | wayback.py:73-77 | Accepts exactly the strings that fully match the pattern, plus those strings followed by one `"\n"` (Python's `$`). An accepted string comes back unchanged; a rejected one is carried in the failure. |
| Validate.WellFormedIffPattern | wayback.py:74 | The regular-expression reading of the pattern and the label reading (≥2 labels, non-final labels `[A-Za-z0-9-]+`, final label ≥2 ASCII letters) accept the same strings, in both directions. |
| Validate.ValidateWithoutTrailingSpace | wayback.py:74-75 | For a string not ending in whitespace, validation succeeds iff it has the domain shape, read either way. |
| Driver.StrippedDomainValidation | wayback.py:84-90 | Every domain the driver validates has been stripped, so the trailing-newline case never arises: a domain is accepted iff it has the domain shape. |
| Text.Strip | wayback.py:90 | `strip()` leaves no whitespace at either end, and gives `""` exactly when the line is all whitespace. |
| Text.StripAt | wayback.py:90 | The stripped string starts where the leading whitespace ends, and what is cut from either end is whitespace. |
| Text.StripIsSlice | wayback.py:90 | The stripped string is a contiguous slice of the input, and everything cut from either end is whitespace. |
| Text.SplitSingle | wayback.py:74 | A string splits into one part, itself, exactly when the separator does not occur in it: a name without a dot is a single label. |
| Text.SplitPartsFree | wayback.py:74 | No part of a split holds the separator, so every label is dot-free. |
| Text.SplitJoin | wayback.py:54 | Splitting the `"\n".join` of a non-empty list of newline-free strings on `"\n"` gives back the same list, so the file's lines are exactly the list. |
| Text.Join | wayback.py:54 | The `"\n".join` of a non-empty list ends with the list's last element, so the file has no trailing newline. |
| Text.JoinSplit | wayback.py:74 | Joining the dot-split labels with `.` gives back the original string, so the label reading loses nothing. |
| Order.LessTotal | wayback.py:46 | Python's string `<` orders any two different strings one way or the other. |
| Order.LessTransitive | wayback.py:46 | Python's string `<` is transitive. |
| Order.Insert | wayback.py:46 | Adding a string to a strictly ascending list keeps it strictly ascending. The element set grows by exactly that string, and the length grows by one iff the string was new. |
| Order.SortedListingUnique | wayback.py:46 | Two strictly ascending lists with the same elements are equal, so `sorted(set(...))` has one possible value. |
| Extract.LongestGroup | wayback.py:45 | Finds the longest group `[a-zA-Z0-9._-]+\.` of at most `g` characters at an index that is followed by the domain, or reports that no such group of at most `g` characters exists. It is called with `g` reaching the end of the URL, which covers every group. |
| Extract.GroupChosenAt | wayback.py:45 | At one index, the engine's choice is the longest group when there is one, else the bare domain. It reports no match exactly when the pattern cannot match there. |
| Extract.Search | wayback.py:45-48 | `pattern.search`: no match iff the pattern matches at no index. Otherwise the match starts at the leftmost matching index and takes the longest group there, with the domain right after it. |
| Extract.ExtractSubdomain | wayback.py:45-48 | A match is a substring of the URL, ends with the literal domain, and is preceded by nothing or by a `[A-Za-z0-9._-]` run of length ≥2 ending in `.`. There is no match iff the domain does not occur in the URL. |
| Extract.MatchingRows | wayback.py:47-48 | At most as many rows contribute a match as there are rows with more than two fields. |
| Extract.Gather | wayback.py:46-49 | The collected list is strictly ascending. It holds exactly the first matches of the rows, and is no longer than the number of rows that match. |
| Extract.Subdomains | wayback.py:46-49 | The header row `data[0]` never contributes. The list is strictly ascending, holds exactly the matches of rows 1.. with more than two fields, and is no longer than the number of such rows. |
| Extract.RowMatch | wayback.py:47-48 | A row contributes iff it has more than two fields and the domain occurs in field 2. What it contributes occurs in field 2 and has the pattern's shape. |
| Extract.GatherLength | wayback.py:46-49 | The collected list has one entry per matching row exactly when no two rows contribute the same match. A repeated match makes it strictly shorter. |
| Extract.SubdomainsLength | wayback.py:45-49 | The subdomain list is as long as the number of matching data rows (header excluded) exactly when no two of those rows contribute the same match. |
| Extract.SubdomainsFound | wayback.py:45-48 | Every listed subdomain has the pattern's shape and occurs in field 2 of some data row with more than two fields. |
| Extract.SubdomainsIsSortedSet | wayback.py:46-49 | Any strictly ascending list of the rows' matches equals the computed list: it is `sorted(set(...))`. |
| Extract.HostAfterScheme | wayback.py:45-48 | In `http://<label>.example.com/<c>` (three-character alphanumeric label, any last character), the match is `<label>.example.com`. Nothing in the scheme matches, and the greedy group stops at the dot just before the domain. |
| Extract.NoMatchBefore | wayback.py:45 | Up to a character outside `[a-zA-Z0-9._-]`, with no dot and no first character of the domain before it, the pattern matches at no index. |
| Extract.ExtractAt | wayback.py:45-48 | When no index before `j` matches and `g` is the longest group at `j`, the match is the group followed by the domain. |
| Extract.ExampleListing | wayback.py:45-49 | For `example.com` and data rows (any header, any number of fields above two) whose URLs are `http://foo.example.com/a`, `http://bar.example.com/b` and `http://foo.example.com/c`, the listing is exactly `[bar.example.com, foo.example.com]`: the repeat is dropped and the list is ordered. It holds for any three-character alphanumeric labels in place of `foo` and `bar` with `bar` before `foo` in Python's string order, including labels that share their first characters. |
| Fetcher.Classify | wayback.py:32-68 | An attempt sends the loop round again iff it is a request exception, or a decode error of a non-blank body when decode errors count as request exceptions. It saves a file iff the body is not blank, parses to more than one row, and yields a non-empty subdomain list. The saved list is then exactly `Subdomains` of the parsed rows, written as its `"\n"` join to `wayback_subs_<domain>.txt`. |
| Fetcher.ClassifyStops | wayback.py:35-68 | All-whitespace body ⇒ "Empty response"; ≤1 parsed rows ⇒ "No data"; non-retried decode error ⇒ JSON error; rows but no match ⇒ "No matching subdomains"; other exception ⇒ unexpected error. Each holds in both directions. |
| Fetcher.AttemptLoop | wayback.py:29-70 | The loop ends with "All retries failed" iff every remaining attempt retries, after 3 attempts and 3 sleeps. Otherwise it returns the outcome of the first attempt that does not retry, with one sleep for each attempt before it. |
| Fetcher.Fetch | wayback.py:25-70 | 1 to 3 attempts. "All retries failed" iff all three attempts retry, then 3 attempts and 3 sleeps. Otherwise the first non-retrying attempt fixes the outcome, and sleeps = attempts − 1. |
| Fetcher.ExhaustedAfterThreeFailures | wayback.py:29-70 | Three request exceptions give exactly 3 attempts, 3 sleeps, and "All retries failed". |
| Fetcher.FirstAnswerFinal | wayback.py:35-68 | A first attempt that does not retry ends the function at once: 1 attempt, no sleep, no further request. |
| Fetcher.SavedFile | wayback.py:46-55 | A saved list is `Subdomains` of the parsed response and the file's text is its `"\n"` join. So the list is non-empty, strictly ascending and made of well-shaped subdomains. The file is named `"wayback_subs_" + domain + ".txt"`, and its text ends with the domain (no trailing newline). For a newline-free domain, its lines are exactly the list. |
| Fetcher.RenderedList | wayback.py:52-54 | The `"\n".join` of a non-empty subdomain list ends with the domain, and splits back into the list when the domain has no newline. |
| Fetcher.OutputName | wayback.py:52 | The file name is `wayback_subs_`, then the domain, then `.txt`, with the domain recoverable from positions 13 to length − 4. |
| Fetcher.OutputNameInjective | wayback.py:52 | Two domains share an output file iff they are equal, so only a repeated domain overwrites an earlier file. |
| Driver.DomainsFromLines | wayback.py:90 | Every domain read from the file is a non-empty stripped line. Every non-blank line contributes its stripped text, and there are no more domains than lines. |
| Driver.DomainsFromLinesAppend | wayback.py:90 | The domains of a file are computed line by line, in order: those of `xs + ys` are those of `xs` followed by those of `ys`. One line gives `[]` if it is blank and `[line.strip()]` otherwise. Order and repeats are therefore kept. |
| Driver.NonEmpty | wayback.py:90 | Keeps exactly the non-empty strings of its input, and no more than there are. |
| Driver.NonEmptyAppend | wayback.py:90 | The filter keeps order and repeats: filtering `xs + ys` is filtering `xs`, then `ys`. |
| Driver.NonEmptySingle | wayback.py:90 | One string is kept iff it is non-empty. |
| Driver.StripAllAppend | wayback.py:90 | Stripping works line by line: `xs + ys` strips to the stripped `xs` followed by the stripped `ys`. |
| Driver.StripAllSingle | wayback.py:90 | One line strips to its `strip()`. |
| Driver.WriteFile | wayback.py:53-54 | Opening with `"w"` replaces the file's content whatever it held, and leaves every other file alone. |
| Driver.LastWriterWins | wayback.py:53-54 | After a sequence of fetches, a file holds what the last fetch that wrote it wrote: a second `open(..., "w")` of the same name overwrites the first. |
| Driver.FilesUntouched | wayback.py:53-54 | A file that no fetch writes is left as it was, present or absent. |
| Driver.DomainLoop | wayback.py:93-95 | Domains are fetched in order, and only accepted ones. The run stops with exit status 1 at the first rejected domain and fetches nothing at or after it; otherwise it fetches every domain. The files afterwards are those left by each fetch's write applied in fetch order (`FilesAfter`). |
| Driver.RunDomains | wayback.py:93-95 | The same, with acceptance given by `ValidateDomain`, and each report holding `Fetch` of that domain under its own network answers. A file written by a fetch holds that fetch's content unless a later fetch writes the same name. A file no fetch writes is unchanged. |
| Driver.RunFile | wayback.py:88-95 | In file mode the run fetches the stripped non-blank lines in file order. The k-th fetch is `Fetch` of the k-th domain with the k-th network answers, and every fetched domain has the domain shape. The run finishes after all of them, or exits with status 1 at the first domain without the shape, and no later domain is fetched. It exits with 1 iff some domain lacks the shape. The files are the fetches' writes in order. |
| Driver.RunSingle | wayback.py:96-98 | A stripped argument with the domain shape is fetched exactly once, with `net(0)`, and the run finishes with that fetch's file written. Otherwise nothing is fetched, nothing is written, and the run exits with status 1. Either way, the files afterwards are the starting files with each report's write applied in order. |
| Driver.Main | wayback.py:83-98 | Combines the two modes. A single domain is fetched exactly once if it has the domain shape; otherwise nothing is fetched and the exit status is 1. A file's domains are fetched in order up to the first one without the shape, and the exit status is 1 exactly when there is one. In both modes, the files afterwards are the starting files with each fetch's write applied in report order, so a later write to the same name replaces an earlier one. |

## Left out

- HTTP: building the query URL, the `User-Agent` header, the 15-second timeout and `raise_for_status` belong to the `requests` library. Each request becomes an `Attempt`. A 4xx or 5xx status is a `RequestFailed` attempt, since only those make `raise_for_status` raise. A 1xx or 3xx response that reaches the code (`requests` normally follows redirects itself) goes on to the body checks like a 2xx one, so it is a `Received` attempt.
- The classification of `requests`' JSON decode error is a flag (`decodeErrorRetried`), because it depends on the library version.
- JSON parsing: a parsed body is given as `seq<seq<string>>`, or as a decode error. Other JSON values stand for the list with the same outcome. `null`, `false`, `0`, `""`, `{}`, a one-key object and a one-character string fail `not data or len(data) <= 1` (wayback.py:40) and are `Received(text, Some([]))`. A string of two or more characters, or a list whose rows are strings, gets past line 47 without an exception and without a match: it is a list of rows with at most two fields. Values on which `len`, slicing, indexing or `re.search` raise are the `Crashed` attempt, the generic `except Exception`. Examples are a non-zero number, `true`, an object with two or more keys, and a row whose field 2 is not a string.
- Fetcher.Fetch: the sleeps are counted rather than timed. Each stands for `time.sleep(2)`.
- Text.Strip: only ASCII whitespace is stripped. Python's `str.strip()` also removes Unicode spaces such as U+00A0, which are not modelled.
- Console output (the banner and every `print`), `input()`, `os.path.isfile` (a flag), and reading the input file (its lines are a parameter) are I/O.
- The file's encoding and line endings: `open(output_file, "w")` (wayback.py:53) writes in the locale's default encoding and turns each `"\n"` into `os.linesep`. The model keeps the text as characters joined with `"\n"`. The subdomains are ASCII, so the encoding never changes the text. On a platform whose `os.linesep` is `"\r\n"`, the bytes on disk differ from the model's text in the line endings only.
- Fetcher.Classify: assumes that opening and writing the output file (wayback.py:53-54) succeeds. In the code, an `OSError` there is caught by the generic handler (wayback.py:66-68). That happens without write permission, when a directory has the file's name, or when the name exceeds the file-system limit (255 bytes, so a domain of 239 or more characters). The run then prints the unexpected-error message and does not retry. It leaves no file, or an empty one if the open succeeded and the write failed. The model's `Saved` outcome does not cover this case.

=== FILE: driver.dfy ===
/**
 * `main`: the domains to process, each validated and then fetched in order,
 * with the whole run stopping (`sys.exit(1)`) at the first invalid domain.
 */
module Driver {
  import opened Wrappers
  import opened Text
  import opened Validate
  import opened Fetcher

  /** What is left of a line once stripped, when something is left. */
  predicate IsTrimmedWord(d: string) {
    d != [] && !IsSpace(d[0]) && !IsSpace(d[|d| - 1])
  }

  /** `f` applied to every element of `xs`, in order. */
  function Map<A, B>(f: A -> B, xs: seq<A>): (r: seq<B>)
    ensures |r| == |xs|
    ensures forall j :: 0 <= j < |xs| ==> r[j] == f(xs[j])
  {
    seq(|xs|, j requires 0 <= j < |xs| => f(xs[j]))
  }

  /** Mapping works piece by piece. */
  lemma MapAppend<A, B>(f: A -> B, xs: seq<A>, ys: seq<A>)
    ensures Map(f, xs + ys) == Map(f, xs) + Map(f, ys)
  {
    var a, b := Map(f, xs + ys), Map(f, xs) + Map(f, ys);
    forall j | 0 <= j < |a|
      ensures a[j] == b[j]
    {
      if j < |xs| {
        assert (xs + ys)[j] == xs[j];
      } else {
        assert (xs + ys)[j] == ys[j - |xs|];
      }
    }
  }

  /** Every line of the file, stripped. */
  function StripAll(lines: seq<string>): (r: seq<string>)
    ensures |r| == |lines|
    ensures forall j :: 0 <= j < |lines| ==> r[j] == Strip(lines[j])
  {
    Map(Strip, lines)
  }

  /** The non-empty strings of `xs`, in order. */
  function NonEmpty(xs: seq<string>): (r: seq<string>)
    ensures |r| <= |xs|
    ensures forall x :: x in r <==> x in xs && x != []
  {
    if |xs| == 0 then []
    else
      var rest := NonEmpty(xs[1..]);
      assert forall x :: x in xs <==> x == xs[0] || x in xs[1..];
      if xs[0] == [] then rest else [xs[0]] + rest
  }

  /** The domains of a file (wayback.py:90): every line stripped, the blank ones dropped, in file order. */
  function DomainsFromLines(lines: seq<string>): (r: seq<string>)
    ensures |r| <= |lines|
    ensures forall d :: d in r ==> IsTrimmedWord(d)
    ensures forall d :: d in r <==> d != [] && d in StripAll(lines)
    ensures forall j :: 0 <= j < |lines| && !AllSpace(lines[j]) ==> Strip(lines[j]) in r
  {
    var stripped := StripAll(lines);
    StrippedWords(lines, stripped);
    NonEmpty(stripped)
  }

  lemma StrippedWords(lines: seq<string>, stripped: seq<string>)
    requires |stripped| == |lines|
    requires forall j :: 0 <= j < |lines| ==> stripped[j] == Strip(lines[j])
    ensures forall d :: d in stripped && d != [] ==> IsTrimmedWord(d)
    ensures forall j :: 0 <= j < |lines| && !AllSpace(lines[j]) ==> stripped[j] in stripped && stripped[j] != []
  {
    forall d | d in stripped && d != []
      ensures IsTrimmedWord(d)
    {
      var j :| 0 <= j < |stripped| && stripped[j] == d;
      StripTrimmed(lines[j], d);
    }
    forall j | 0 <= j < |lines| && !AllSpace(lines[j])
      ensures stripped[j] in stripped && stripped[j] != []
    {
      StripTrimmed(lines[j], stripped[j]);
    }
  }

  lemma StripTrimmed(line: string, d: string)
    requires d == Strip(line)
    ensures d != [] <==> !AllSpace(line)
    ensures d != [] ==> IsTrimmedWord(d)
  {
  }

  /** Stripping works line by line: a file's lines may be stripped in pieces. */
  lemma StripAllAppend(xs: seq<string>, ys: seq<string>)
    ensures StripAll(xs + ys) == StripAll(xs) + StripAll(ys)
  {
    MapAppend(Strip, xs, ys);
  }

  /** One line stripped. */
  lemma StripAllSingle(l: string)
    ensures StripAll([l]) == [Strip(l)]
  {
    assert StripAll([l])[0] == Strip([l][0]);
  }

  /** The filter keeps the order and the repeats of what it keeps: it works piece by piece. */
  lemma {:induction false} NonEmptyAppend(xs: seq<string>, ys: seq<string>)
    ensures NonEmpty(xs + ys) == NonEmpty(xs) + NonEmpty(ys)
    decreases |xs|
  {
    if |xs| > 0 {
      assert (xs + ys)[0] == xs[0];
      assert (xs + ys)[1..] == xs[1..] + ys;
      NonEmptyAppend(xs[1..], ys);
      if xs[0] != [] {
        assert [xs[0]] + (NonEmpty(xs[1..]) + NonEmpty(ys)) == [xs[0]] + NonEmpty(xs[1..]) + NonEmpty(ys);
      }
    } else {
      assert xs + ys == ys;
    }
  }

  /** A single string is kept exactly when it is not empty. */
  lemma NonEmptySingle(x: string)
    ensures NonEmpty([x]) == if x == [] then [] else [x]
  {
    assert [x][1..] == [];
  }

  /**
   * Reading domains from a file (wayback.py:90) works line by line, in
   * order: the domains of a file are those of its first part followed by
   * those of the rest, and one line gives its stripped text unless it is blank.
   */
  lemma DomainsFromLinesAppend(xs: seq<string>, ys: seq<string>)
    ensures DomainsFromLines(xs + ys) == DomainsFromLines(xs) + DomainsFromLines(ys)
    ensures forall l :: DomainsFromLines([l]) == if IsBlank(l) then [] else [Strip(l)]
  {
    StripAllAppend(xs, ys);
    NonEmptyAppend(StripAll(xs), StripAll(ys));
    forall l
      ensures DomainsFromLines([l]) == if IsBlank(l) then [] else [Strip(l)]
    {
      StripAllSingle(l);
      NonEmptySingle(Strip(l));
    }
  }

  /**
   * A domain read from a file or the command line has been stripped, so it
   * never ends in a newline and is accepted exactly when it has the domain
   * shape.
   */
  lemma StrippedDomainValidation(raw: string)
    ensures ValidateDomain(Strip(raw)).Success? <==> MatchesPattern(Strip(raw))
    ensures ValidateDomain(Strip(raw)).Success? <==> HasDomainShape(Split(Strip(raw), '.'))
  {
    ValidateWithoutTrailingSpace(Strip(raw));
  }

  /** Opening the output file for writing (wayback.py:53) replaces whatever it held. */
  function WriteFile(files: map<string, string>, f: OutputFile): (r: map<string, string>)
    ensures r.Keys == files.Keys + {f.name}
    ensures r[f.name] == f.content
    ensures forall n :: n in files && n != f.name ==> r[n] == files[n]
  {
    files[f.name := f.content]
  }

  /** The file a fetch wrote, if any. */
  function Written(res: FetchResult): Option<OutputFile> {
    if res.ending.Returned? && res.ending.outcome.Saved? then Some(res.ending.outcome.file) else None
  }

  function AfterFetch(files: map<string, string>, res: FetchResult): map<string, string> {
    match Written(res)
    case None => files
    case Some(f) => WriteFile(files, f)
  }

  /** The fetch of `rep` wrote the file `n`. */
  predicate WritesTo(rep: Report, n: string) {
    Written(rep.result).Some? && Written(rep.result).value.name == n
  }

  /** The fetch at `k` wrote a file that no later fetch of `reports` writes. */
  predicate LastWrite(reports: seq<Report>, k: nat)
    requires k < |reports|
  {
    Written(reports[k].result).Some?
    && forall j :: k < j < |reports| ==> !WritesTo(reports[j], Written(reports[k].result).value.name)
  }

  /** The files after the fetches of `reports`, one after the other. */
  function FilesAfter(files: map<string, string>, reports: seq<Report>): map<string, string>
    decreases |reports|
  {
    if |reports| == 0 then files
    else FilesAfter(AfterFetch(files, reports[0].result), reports[1..])
  }

  /** A file no fetch writes is left as it was, present or absent. */
  lemma {:induction false} FilesUntouched(files: map<string, string>, reports: seq<Report>, n: string)
    requires forall j :: 0 <= j < |reports| ==> !WritesTo(reports[j], n)
    ensures n in FilesAfter(files, reports) <==> n in files
    ensures n in files ==> FilesAfter(files, reports)[n] == files[n]
    decreases |reports|
  {
    if |reports| > 0 {
      assert !WritesTo(reports[0], n);
      forall j | 0 <= j < |reports[1..]|
        ensures !WritesTo(reports[1..][j], n)
      {
        assert reports[1..][j] == reports[j + 1];
      }
      FilesUntouched(AfterFetch(files, reports[0].result), reports[1..], n);
    }
  }

  /**
   * Opening for writing truncates (wayback.py:53): a file holds what the last
   * fetch that wrote it wrote.
   */
  lemma {:induction false} LastWriterWins(files: map<string, string>, reports: seq<Report>, k: nat)
    requires k < |reports| && LastWrite(reports, k)
    ensures var f := Written(reports[k].result).value;
      f.name in FilesAfter(files, reports) && FilesAfter(files, reports)[f.name] == f.content
    decreases |reports|
  {
    var f := Written(reports[k].result).value;
    if k == 0 {
      forall j | 0 <= j < |reports[1..]|
        ensures !WritesTo(reports[1..][j], f.name)
      {
        assert reports[1..][j] == reports[j + 1];
      }
      FilesUntouched(AfterFetch(files, reports[0].result), reports[1..], f.name);
    } else {
      assert reports[1..][k - 1] == reports[k];
      forall j | k - 1 < j < |reports[1..]|
        ensures !WritesTo(reports[1..][j], f.name)
      {
        assert reports[1..][j] == reports[j + 1];
      }
      LastWriterWins(AfterFetch(files, reports[0].result), reports[1..], k - 1);
    }
  }

  datatype Exit = Finished | Exited(code: int)

  datatype Report = Report(domain: string, result: FetchResult)

  /** What a run did: the domains fetched in order, how it ended, and the files afterwards. */
  datatype Run = Run(reports: seq<Report>, exit: Exit, files: map<string, string>)

  /**
   * The loop over the domains (wayback.py:93-95) from index `i` on, where
   * `accepted[k]` says whether validation lets the domain at `k` through and
   * `results[k]` is what fetching it gives.
   */
  function DomainLoop(domains: seq<string>, accepted: seq<bool>, results: seq<FetchResult>,
                i: nat, files: map<string, string>): (r: Run)
    requires |accepted| == |results| == |domains| && i <= |domains|
    ensures |r.reports| <= |domains| - i
    ensures forall k :: 0 <= k < |r.reports| ==>
      r.reports[k] == Report(domains[i + k], results[i + k]) && accepted[i + k]
    ensures r.exit == Finished || r.exit == Exited(1)
    ensures r.exit == Finished ==> |r.reports| == |domains| - i
    ensures r.exit == Exited(1) ==> |r.reports| < |domains| - i && !accepted[i + |r.reports|]
    ensures forall k :: i <= k < |domains| && !accepted[k] ==> |r.reports| <= k - i
    ensures r.files == FilesAfter(files, r.reports)
    decreases |domains| - i
  {
    if i == |domains| then Run([], Finished, files)
    else if !accepted[i] then Run([], Exited(1), files)
    else
      var res := results[i];
      var rest := DomainLoop(domains, accepted, results, i + 1, AfterFetch(files, res));
      var r := Run([Report(domains[i], res)] + rest.reports, rest.exit, rest.files);
      assert r.reports[1..] == rest.reports;
      r
  }

  /**
   * `r` fetched a prefix of `domains`, in order, each domain validated and
   * fetched with its own answers from the network; it finished after all of
   * them, or stopped with status 1 at the first domain validation rejects.
   */
  ghost predicate StopsAtFirstRejected(domains: seq<string>, net: nat -> nat -> Attempt, decodeErrorRetried: bool, r: Run) {
    && |r.reports| <= |domains|
    && (forall k :: 0 <= k < |r.reports| ==>
         && r.reports[k].domain == domains[k]
         && ValidateDomain(domains[k]).Success?
         && r.reports[k].result == Fetch(domains[k], net(k), decodeErrorRetried))
    && (r.exit == Finished || r.exit == Exited(1))
    && (r.exit == Finished ==> |r.reports| == |domains|)
    && (r.exit == Exited(1) ==> |r.reports| < |domains| && ValidateDomain(domains[|r.reports|]).Failure?)
    && (forall k :: 0 <= k < |domains| && ValidateDomain(domains[k]).Failure? ==> |r.reports| <= k)
  }

  /**
   * Each domain in turn is validated and then fetched (wayback.py:93-95).
   * The network answers attempt `a` for the domain at index `k` with `net(k)(a)`.
   * Domains are fetched in order until the first one that fails validation,
   * which ends the run with exit status 1; `files` maps file names to contents.
   */
  function RunDomains(domains: seq<string>, net: nat -> nat -> Attempt, decodeErrorRetried: bool,
                      files: map<string, string>): (r: Run)
    ensures StopsAtFirstRejected(domains, net, decodeErrorRetried, r)
    ensures forall k :: 0 <= k < |r.reports| && LastWrite(r.reports, k) ==>
      var f := Written(r.reports[k].result).value;
      f.name in r.files && r.files[f.name] == f.content
    ensures forall n :: n in files && (forall j :: 0 <= j < |r.reports| ==> !WritesTo(r.reports[j], n)) ==>
      n in r.files && r.files[n] == files[n]
    ensures r.files == FilesAfter(files, r.reports)
  {
    var accepted := seq(|domains|, k requires 0 <= k < |domains| => ValidateDomain(domains[k]).Success?);
    var results := seq(|domains|, k requires 0 <= k < |domains| => Fetch(domains[k], net(k), decodeErrorRetried));
    var r := DomainLoop(domains, accepted, results, 0, files);
    LoopFromStart(domains, net, decodeErrorRetried, files, accepted, results, r);
    FilesAfterAll(files, r.reports);
    r
  }

  /** The loop over the domains from the first one, validation and fetching given by `accepted` and `results`. */
  lemma LoopFromStart(domains: seq<string>, net: nat -> nat -> Attempt, decodeErrorRetried: bool,
                      files: map<string, string>, accepted: seq<bool>, results: seq<FetchResult>, r: Run)
    requires |accepted| == |results| == |domains|
    requires forall k :: 0 <= k < |domains| ==> accepted[k] == ValidateDomain(domains[k]).Success?
    requires forall k :: 0 <= k < |domains| ==> results[k] == Fetch(domains[k], net(k), decodeErrorRetried)
    requires r == DomainLoop(domains, accepted, results, 0, files)
    ensures StopsAtFirstRejected(domains, net, decodeErrorRetried, r)
  {
    forall k | 0 <= k < |r.reports|
      ensures r.reports[k].domain == domains[k] && ValidateDomain(domains[k]).Success?
      ensures r.reports[k].result == Fetch(domains[k], net(k), decodeErrorRetried)
    {
      assert r.reports[k] == Report(domains[k], results[k]) && accepted[k];
    }
    forall k | 0 <= k < |domains| && ValidateDomain(domains[k]).Failure?
      ensures |r.reports| <= k
    {
      assert !accepted[k];
    }
  }

  /** `LastWriterWins` and `FilesUntouched` for every fetch and every file at once. */
  lemma FilesAfterAll(files: map<string, string>, reports: seq<Report>)
    ensures forall k :: 0 <= k < |reports| && LastWrite(reports, k) ==>
      var f := Written(reports[k].result).value;
      f.name in FilesAfter(files, reports) && FilesAfter(files, reports)[f.name] == f.content
    ensures forall n :: n in files && (forall j :: 0 <= j < |reports| ==> !WritesTo(reports[j], n)) ==>
      n in FilesAfter(files, reports) && FilesAfter(files, reports)[n] == files[n]
  {
    var after := FilesAfter(files, reports);
    forall k | 0 <= k < |reports| && LastWrite(reports, k)
      ensures Written(reports[k].result).value.name in after
      ensures after[Written(reports[k].result).value.name] == Written(reports[k].result).value.content
    {
      LastWriterWins(files, reports, k);
    }
    forall n | n in files && (forall j :: 0 <= j < |reports| ==> !WritesTo(reports[j], n))
      ensures n in after && after[n] == files[n]
    {
      FilesUntouched(files, reports, n);
    }
  }

  /**
   * `main()` once its argument is read: `arg` is `sys.argv[1]` or what
   * `input()` returned, `isFile` is what `os.path.isfile` says of it once
   * stripped, and `lines` are the lines of that file. Whatever the source of
   * a domain, it has been stripped, so the run stops exactly at the first
   * domain without the domain shape.
   */
  function Main(arg: string, isFile: bool, lines: seq<string>, net: nat -> nat -> Attempt,
                decodeErrorRetried: bool, files: map<string, string>): (r: Run)
    ensures !isFile && MatchesPattern(Strip(arg)) ==>
      r.reports == [Report(Strip(arg), Fetch(Strip(arg), net(0), decodeErrorRetried))] && r.exit == Finished
    ensures !isFile && !MatchesPattern(Strip(arg)) ==> r.reports == [] && r.exit == Exited(1)
    ensures isFile ==> FetchesInOrder(DomainsFromLines(lines), net, decodeErrorRetried, r)
    ensures isFile ==> (r.exit == Exited(1) <==>
      exists d :: d in DomainsFromLines(lines) && !MatchesPattern(d))
    ensures r.files == FilesAfter(files, r.reports)
  {
    if isFile then RunFile(lines, net, decodeErrorRetried, files)
    else RunSingle(arg, net, decodeErrorRetried, files)
  }

  /**
   * `r` fetched a prefix of `domains`, in order, each with its own answers
   * from the network; it finished after all of them, or stopped with status 1
   * at the first domain without the domain shape.
   */
  ghost predicate FetchesInOrder(domains: seq<string>, net: nat -> nat -> Attempt, decodeErrorRetried: bool, r: Run) {
    && |r.reports| <= |domains|
    && (forall k :: 0 <= k < |r.reports| ==>
         r.reports[k] == Report(domains[k], Fetch(domains[k], net(k), decodeErrorRetried))
         && MatchesPattern(domains[k]))
    && (r.exit == Finished || r.exit == Exited(1))
    && (r.exit == Finished ==> |r.reports| == |domains|)
    && (r.exit == Exited(1) ==> |r.reports| < |domains| && !MatchesPattern(domains[|r.reports|]))
  }

  /** wayback.py:89-95: every non-blank line of the file, stripped, in order. */
  function RunFile(lines: seq<string>, net: nat -> nat -> Attempt,
                   decodeErrorRetried: bool, files: map<string, string>): (r: Run)
    ensures FetchesInOrder(DomainsFromLines(lines), net, decodeErrorRetried, r)
    ensures r.exit == Exited(1) <==> exists d :: d in DomainsFromLines(lines) && !MatchesPattern(d)
    ensures r.files == FilesAfter(files, r.reports)
  {
    var domains := DomainsFromLines(lines);
    var r := RunDomains(domains, net, decodeErrorRetried, files);
    MainExit(domains, net, decodeErrorRetried, r);
    FetchedShape(domains, net, decodeErrorRetried, r);
    r
  }

  /**
   * The stripped argument alone (wayback.py:97-98): validated, then fetched
   * with the network's first answers `net(0)`.
   */
  function RunSingle(arg: string, net: nat -> nat -> Attempt,
                     decodeErrorRetried: bool, files: map<string, string>): (r: Run)
    ensures MatchesPattern(Strip(arg)) ==>
      && r.reports == [Report(Strip(arg), Fetch(Strip(arg), net(0), decodeErrorRetried))]
      && r.exit == Finished
      && r.files == AfterFetch(files, Fetch(Strip(arg), net(0), decodeErrorRetried))
    ensures !MatchesPattern(Strip(arg)) ==> r.reports == [] && r.exit == Exited(1) && r.files == files
    ensures r.files == FilesAfter(files, r.reports)
  {
    var d := Strip(arg);
    StrippedDomainValidation(arg);
    if ValidateDomain(d).Success? then
      var res := Fetch(d, net(0), decodeErrorRetried);
      OneReport(files, d, res);
      Run([Report(d, res)], Finished, AfterFetch(files, res))
    else Run([], Exited(1), files)
  }

  /** The files after one fetch. */
  lemma OneReport(files: map<string, string>, d: string, res: FetchResult)
    ensures FilesAfter(files, [Report(d, res)]) == AfterFetch(files, res)
  {
    assert [Report(d, res)][1..] == [];
  }

  /** For stripped domains, `StopsAtFirstRejected` reads as `FetchesInOrder`. */
  lemma FetchedShape(domains: seq<string>, net: nat -> nat -> Attempt, decodeErrorRetried: bool, r: Run)
    requires forall d :: d in domains ==> d == [] || !IsSpace(d[|d| - 1])
    requires StopsAtFirstRejected(domains, net, decodeErrorRetried, r)
    ensures FetchesInOrder(domains, net, decodeErrorRetried, r)
  {
    forall k | 0 <= k < |r.reports|
      ensures MatchesPattern(domains[k])
    {
      assert domains[k] in domains;
      ValidateWithoutTrailingSpace(domains[k]);
    }
    if r.exit == Exited(1) {
      assert domains[|r.reports|] in domains;
      ValidateWithoutTrailingSpace(domains[|r.reports|]);
    }
  }

  /** For stripped domains, the run ends with status 1 exactly when one of them lacks the domain shape. */
  lemma MainExit(domains: seq<string>, net: nat -> nat -> Attempt, decodeErrorRetried: bool, r: Run)
    requires forall d :: d in domains ==> d == [] || !IsSpace(d[|d| - 1])
    requires StopsAtFirstRejected(domains, net, decodeErrorRetried, r)
    ensures r.exit == Exited(1) <==> exists d :: d in domains && !MatchesPattern(d)
  {
    if r.exit == Exited(1) {
      var d := domains[|r.reports|];
      ValidateWithoutTrailingSpace(d);
    }
    if exists d :: d in domains && !MatchesPattern(d) {
      var d :| d in domains && !MatchesPattern(d);
      var k :| 0 <= k < |domains| && domains[k] == d;
      ValidateWithoutTrailingSpace(d);
    }
  }
}

=== FILE: extract.dfy ===
/**
 * Subdomain extraction: `re.search` of `([a-zA-Z0-9._-]+\.)?<escaped domain>`
 * in the archived URL of every data row, then the matches sorted without repeats.
 * The domain is matched literally, character for character.
 */
module Extract {
  import opened Wrappers
  import opened Text
  import opened Order

  /** `[a-zA-Z0-9._-]` */
  predicate IsHostChar(c: char) {
    IsAsciiAlnum(c) || c == '.' || c == '_' || c == '-'
  }

  predicate AllHostChars(s: string) {
    forall k :: 0 <= k < |s| ==> IsHostChar(s[k])
  }

  /**
   * The group `([a-zA-Z0-9._-]+\.)` can span `g` characters from index `j` of
   * `url` with the domain right after it.
   */
  predicate GroupAt(url: string, domain: string, j: nat, g: nat) {
    2 <= g && j + g <= |url| && AllHostChars(url[j..j + g]) && url[j + g - 1] == '.'
    && OccursAt(url, domain, j + g)
  }

  /** The pattern matches at index `j`, with the group or without it. */
  ghost predicate MatchesAt(url: string, domain: string, j: nat) {
    OccursAt(url, domain, j) || exists g: nat :: GroupAt(url, domain, j, g)
  }

  /** A string of the shape `([a-zA-Z0-9._-]+\.)?<domain>`. */
  predicate IsSubdomainOf(m: string, domain: string) {
    EndsWith(m, domain) &&
    var p := m[..|m| - |domain|];
    p == [] || (|p| >= 2 && AllHostChars(p) && p[|p| - 1] == '.')
  }

  /** The longest group at `j` that spans at most `g` characters. */
  function LongestGroup(url: string, domain: string, j: nat, g: nat): (r: Option<nat>)
    ensures r.Some? ==> r.value <= g && GroupAt(url, domain, j, r.value)
    ensures r.Some? ==> forall h: nat :: r.value < h <= g ==> !GroupAt(url, domain, j, h)
    ensures r.None? ==> forall h: nat :: h <= g ==> !GroupAt(url, domain, j, h)
  {
    if g < 2 then None
    else if GroupAt(url, domain, j, g) then Some(g)
    else LongestGroup(url, domain, j, g - 1)
  }

  /**
   * What the backtracking engine settles on at index `j`: the optional group is
   * tried first and its `+` is greedy, so the longest group wins; failing any
   * group, the bare domain. The value is the group's length, 0 for no group.
   */
  function GroupChosenAt(url: string, domain: string, j: nat): (r: Option<nat>)
    ensures r.Some? ==> r.value == 0 || GroupAt(url, domain, j, r.value)
    ensures r.Some? ==> OccursAt(url, domain, j + r.value)
    ensures r.Some? ==> forall h: nat :: GroupAt(url, domain, j, h) ==> h <= r.value
    ensures r.None? <==> !MatchesAt(url, domain, j)
  {
    if j > |url| then None
    else match LongestGroup(url, domain, j, |url| - j)
      case Some(g) => Some(g)
      case None => if OccursAt(url, domain, j) then Some(0) else None
  }

  /** A match of the pattern: where it starts and how long its group is. */
  datatype Span = Span(start: nat, group: nat)

  function SearchFrom(url: string, domain: string, j: nat): (r: Option<Span>)
    ensures r.Some? ==> j <= r.value.start && GroupChosenAt(url, domain, r.value.start) == Some(r.value.group)
    ensures r.Some? ==> forall k: nat :: j <= k < r.value.start ==> !MatchesAt(url, domain, k)
    ensures r.None? ==> forall k: nat :: j <= k <= |url| ==> !MatchesAt(url, domain, k)
    decreases |url| + 1 - j
  {
    if j > |url| then None
    else match GroupChosenAt(url, domain, j)
      case Some(g) => Some(Span(j, g))
      case None => SearchFrom(url, domain, j + 1)
  }

  /**
   * Searching `url` for the pattern (wayback.py:47): the leftmost index at which the pattern matches and,
   * there, the longest group (or none).
   */
  function Search(url: string, domain: string): (r: Option<Span>)
    ensures r.None? <==> forall k: nat :: k <= |url| ==> !MatchesAt(url, domain, k)
    ensures r.Some? ==> forall k: nat :: k < r.value.start ==> !MatchesAt(url, domain, k)
    ensures r.Some? ==> r.value.group == 0 || GroupAt(url, domain, r.value.start, r.value.group)
    ensures r.Some? ==> OccursAt(url, domain, r.value.start + r.value.group)
    ensures r.Some? ==> forall h: nat :: GroupAt(url, domain, r.value.start, h) ==> h <= r.value.group
  {
    SearchFrom(url, domain, 0)
  }

  /** The text the search matched (wayback.py:47), when there is a match. */
  function ExtractSubdomain(url: string, domain: string): (r: Option<string>)
    ensures r.Some? ==> IsSubstring(r.value, url) && IsSubdomainOf(r.value, domain)
    ensures r.None? <==> !IsSubstring(domain, url)
  {
    match Search(url, domain)
    case None =>
      NoMatchMeansAbsent(url, domain);
      None
    case Some(sp) =>
      var m := url[sp.start..sp.start + sp.group + |domain|];
      MatchShape(url, domain, sp, m);
      Some(m)
  }

  lemma NoMatchMeansAbsent(url: string, domain: string)
    requires forall k: nat :: k <= |url| ==> !MatchesAt(url, domain, k)
    ensures !IsSubstring(domain, url)
  {
    forall i: nat | i <= |url|
      ensures !OccursAt(url, domain, i)
    {
      assert !MatchesAt(url, domain, i);
    }
  }

  lemma MatchShape(url: string, domain: string, sp: Span, m: string)
    requires sp.group == 0 || GroupAt(url, domain, sp.start, sp.group)
    requires OccursAt(url, domain, sp.start + sp.group)
    requires m == url[sp.start..sp.start + sp.group + |domain|]
    ensures IsSubstring(m, url) && IsSubdomainOf(m, domain) && IsSubstring(domain, url)
  {
    var s, g := sp.start, sp.group;
    assert |m| == g + |domain|;
    assert OccursAt(url, m, s);
    assert OccursAt(url, domain, s + g);
    assert m[|m| - |domain|..] == url[s + g..s + g + |domain|] == domain;
    assert m[..|m| - |domain|] == url[s..s + g];
  }

  /** What one data row adds: the first match in field 2, for a row with more than two fields. */
  function RowMatch(domain: string, row: seq<string>): (r: Option<string>)
    ensures r.Some? <==> |row| > 2 && IsSubstring(domain, row[2])
    ensures r.Some? ==> IsSubstring(r.value, row[2]) && IsSubdomainOf(r.value, domain)
  {
    if |row| > 2 then ExtractSubdomain(row[2], domain) else None
  }

  /** Some row of `rows` adds `y`. */
  ghost predicate Contributes(domain: string, rows: seq<seq<string>>, y: string) {
    exists i :: 0 <= i < |rows| && RowMatch(domain, rows[i]) == Some(y)
  }

  /** The number of rows with more than two fields. */
  function WideRows(rows: seq<seq<string>>): nat {
    if |rows| == 0 then 0 else (if |rows[0]| > 2 then 1 else 0) + WideRows(rows[1..])
  }

  /** The number of rows that add a match. */
  function MatchingRows(domain: string, rows: seq<seq<string>>): (n: nat)
    ensures n <= WideRows(rows)
  {
    if |rows| == 0 then 0
    else (if RowMatch(domain, rows[0]).Some? then 1 else 0) + MatchingRows(domain, rows[1..])
  }

  lemma ContributesCons(domain: string, rows: seq<seq<string>>, y: string)
    requires |rows| > 0
    ensures Contributes(domain, rows, y) <==>
      RowMatch(domain, rows[0]) == Some(y) || Contributes(domain, rows[1..], y)
  {
    SomeCons(rows, (row: seq<string>) => RowMatch(domain, row) == Some(y));
  }

  /** Some element of a non-empty sequence satisfies `p` when its head or some element of its tail does. */
  lemma SomeCons<T>(xs: seq<T>, p: T -> bool)
    requires |xs| > 0
    ensures (exists i :: 0 <= i < |xs| && p(xs[i])) <==> p(xs[0]) || exists i :: 0 <= i < |xs[1..]| && p(xs[1..][i])
  {
    if exists i :: 0 <= i < |xs| && p(xs[i]) {
      var i :| 0 <= i < |xs| && p(xs[i]);
      if i > 0 {
        assert xs[1..][i - 1] == xs[i];
      }
    }
    if exists i :: 0 <= i < |xs[1..]| && p(xs[1..][i]) {
      var i :| 0 <= i < |xs[1..]| && p(xs[1..][i]);
      assert xs[i + 1] == xs[1..][i];
    }
  }

  /** The matches of all rows, without repeats, in ascending order. */
  function Gather(domain: string, rows: seq<seq<string>>): (r: seq<string>)
    ensures StrictlySorted(r)
    ensures forall y :: y in r <==> Contributes(domain, rows, y)
    ensures |r| <= MatchingRows(domain, rows)
    decreases |rows|
  {
    if |rows| == 0 then []
    else
      var rest := Gather(domain, rows[1..]);
      GatherStep(domain, rows, rest);
      match RowMatch(domain, rows[0])
      case None => rest
      case Some(m) => Insert(rest, m)
  }

  /** No two rows of `rows` add the same match. */
  predicate DistinctMatches(domain: string, rows: seq<seq<string>>) {
    forall i, j :: 0 <= i < j < |rows| && RowMatch(domain, rows[i]).Some? ==>
      RowMatch(domain, rows[i]) != RowMatch(domain, rows[j])
  }

  lemma DistinctCons(domain: string, rows: seq<seq<string>>)
    requires |rows| > 0
    ensures DistinctMatches(domain, rows) <==>
      && DistinctMatches(domain, rows[1..])
      && (RowMatch(domain, rows[0]).Some? ==> !Contributes(domain, rows[1..], RowMatch(domain, rows[0]).value))
  {
    var tail := rows[1..];
    assert forall i :: 0 <= i < |tail| ==> tail[i] == rows[i + 1];
    if DistinctMatches(domain, rows) && RowMatch(domain, rows[0]).Some? {
      forall i | 0 <= i < |tail|
        ensures RowMatch(domain, tail[i]) != RowMatch(domain, rows[0])
      {
        assert tail[i] == rows[i + 1];
      }
    }
    if && DistinctMatches(domain, tail)
       && (RowMatch(domain, rows[0]).Some? ==> !Contributes(domain, tail, RowMatch(domain, rows[0]).value))
    {
      forall i, j | 0 <= i < j < |rows| && RowMatch(domain, rows[i]).Some?
        ensures RowMatch(domain, rows[i]) != RowMatch(domain, rows[j])
      {
        if i == 0 {
          assert tail[j - 1] == rows[j];
        } else {
          assert tail[i - 1] == rows[i] && tail[j - 1] == rows[j];
        }
      }
    }
  }

  /**
   * The listing has one entry per matching row exactly when no two rows add
   * the same match; a repeated match makes it shorter.
   */
  lemma {:induction false} GatherLength(domain: string, rows: seq<seq<string>>)
    ensures |Gather(domain, rows)| == MatchingRows(domain, rows) <==> DistinctMatches(domain, rows)
    decreases |rows|
  {
    if |rows| > 0 {
      var rest := Gather(domain, rows[1..]);
      GatherLength(domain, rows[1..]);
      DistinctCons(domain, rows);
      match RowMatch(domain, rows[0])
      case None =>
      case Some(m) =>
        assert m in rest <==> Contributes(domain, rows[1..], m);
    }
  }

  lemma GatherStep(domain: string, rows: seq<seq<string>>, rest: seq<string>)
    requires |rows| > 0
    requires forall y :: y in rest <==> Contributes(domain, rows[1..], y)
    ensures forall y :: Contributes(domain, rows, y) <==>
      RowMatch(domain, rows[0]) == Some(y) || y in rest
  {
    forall y
      ensures Contributes(domain, rows, y) <==> RowMatch(domain, rows[0]) == Some(y) || y in rest
    {
      ContributesCons(domain, rows, y);
    }
  }

  /**
   * The matches of the data rows, without repeats and in ascending order
   * (wayback.py:46-49); the header row `data[0]` is skipped.
   */
  function Subdomains(domain: string, data: seq<seq<string>>): (r: seq<string>)
    ensures StrictlySorted(r)
    ensures forall y :: y in r <==> exists i :: 1 <= i < |data| && RowMatch(domain, data[i]) == Some(y)
    ensures |data| > 0 ==> |r| <= WideRows(data[1..])
  {
    if |data| == 0 then []
    else
      var r := Gather(domain, data[1..]);
      SkipHeader(domain, data, r);
      r
  }

  /** The subdomain list is as long as the number of matching data rows exactly when no two of them add the same match. */
  lemma SubdomainsLength(domain: string, data: seq<seq<string>>)
    requires |data| > 0
    ensures |Subdomains(domain, data)| == MatchingRows(domain, data[1..]) <==> DistinctMatches(domain, data[1..])
  {
    GatherLength(domain, data[1..]);
  }

  lemma SkipHeader(domain: string, data: seq<seq<string>>, r: seq<string>)
    requires |data| > 0
    requires forall y :: y in r <==> Contributes(domain, data[1..], y)
    ensures forall y :: y in r <==> exists i :: 1 <= i < |data| && RowMatch(domain, data[i]) == Some(y)
  {
    forall y
      ensures y in r <==> exists i :: 1 <= i < |data| && RowMatch(domain, data[i]) == Some(y)
    {
      SomeAfterFirst(data, (row: seq<string>) => RowMatch(domain, row) == Some(y));
    }
  }

  /** Some element of the tail satisfies `p` exactly when some element at index 1 or later does. */
  lemma SomeAfterFirst<T>(xs: seq<T>, p: T -> bool)
    requires |xs| > 0
    ensures (exists i :: 0 <= i < |xs[1..]| && p(xs[1..][i])) <==> exists i :: 1 <= i < |xs| && p(xs[i])
  {
    if exists i :: 0 <= i < |xs[1..]| && p(xs[1..][i]) {
      var i :| 0 <= i < |xs[1..]| && p(xs[1..][i]);
      assert xs[i + 1] == xs[1..][i];
    }
    if exists i :: 1 <= i < |xs| && p(xs[i]) {
      var i :| 1 <= i < |xs| && p(xs[i]);
      assert xs[1..][i - 1] == xs[i];
    }
  }

  /**
   * Every listed subdomain has the pattern's shape and was found in the
   * archived URL (field 2) of some data row with more than two fields.
   */
  lemma {:induction false} SubdomainsFound(domain: string, data: seq<seq<string>>)
    ensures forall y :: y in Subdomains(domain, data) ==> IsSubdomainOf(y, domain)
    ensures forall y :: y in Subdomains(domain, data) ==>
      exists i :: 1 <= i < |data| && |data[i]| > 2 && IsSubstring(y, data[i][2])
  {
    forall y | y in Subdomains(domain, data)
      ensures IsSubdomainOf(y, domain)
      ensures exists i :: 1 <= i < |data| && |data[i]| > 2 && IsSubstring(y, data[i][2])
    {
      var i :| 1 <= i < |data| && RowMatch(domain, data[i]) == Some(y);
      assert |data[i]| > 2 && ExtractSubdomain(data[i][2], domain) == Some(y);
    }
  }

  /**
   * The listing is the sorted set of the matches: any strictly ascending sequence
   * holding the same subdomains is the listing itself.
   */
  lemma {:induction false} SubdomainsIsSortedSet(domain: string, data: seq<seq<string>>, xs: seq<string>)
    requires StrictlySorted(xs)
    requires forall y :: y in xs <==> exists i :: 1 <= i < |data| && RowMatch(domain, data[i]) == Some(y)
    ensures xs == Subdomains(domain, data)
  {
    SortedListingUnique(xs, Subdomains(domain, data));
  }

  /**
   * In `http://<label>.example.com/<c>`, for a three-character alphanumeric
   * label and any last character, the match is `<label>.example.com`: nothing matches inside the scheme,
   * and at the label the longest group ends at the dot before the domain.
   */
  lemma {:induction false} HostAfterScheme(lbl: string, c: char)
    requires |lbl| == 3 && (forall k :: 0 <= k < 3 ==> IsAsciiAlnum(lbl[k]))
    ensures ExtractSubdomain("http://" + lbl + ".example.com/" + [c], "example.com")
      == Some(lbl + ".example.com")
  {
    var d := "example.com";
    var u := "http://" + lbl + ".example.com/" + [c];
    SchemeLayout(lbl, c, u);
    assert GroupAt(u, d, 7, 4);
    NoMatchBefore(u, d, 6);
    forall h: nat | GroupAt(u, d, 7, h)
      ensures h <= 4
    {
      assert 7 + h + |d| <= |u|;
    }
    ExtractAt(u, d, 7, 4);
  }

  /** Where the characters of `http://<label>.example.com/<c>` sit. */
  lemma SchemeLayout(lbl: string, c: char, u: string)
    requires |lbl| == 3 && (forall k :: 0 <= k < 3 ==> IsAsciiAlnum(lbl[k]))
    requires u == "http://" + lbl + ".example.com/" + [c]
    ensures |u| == 24
    ensures forall k :: 0 <= k < 7 ==> u[k] != '.' && u[k] != 'e'
    ensures u[6] == '/' && u[10] == '.' && u[11] == 'e' && u[12] == 'x'
    ensures AllHostChars(u[7..11]) && u[11..22] == "example.com"
    ensures u[7..22] == lbl + ".example.com"
  {
    assert u[..7] == "http://" && u[7..10] == lbl && u[10..22] == ".example.com";
    assert forall k :: 0 <= k < 7 ==> u[k] == u[..7][k];
    assert u[7..11] == lbl + ".";
  }

  /**
   * When nothing matches before `j` and the longest group at `j` has length
   * `g`, the match is the group followed by the domain.
   */
  lemma ExtractAt(u: string, d: string, j: nat, g: nat)
    requires forall k: nat :: k < j ==> !MatchesAt(u, d, k)
    requires GroupAt(u, d, j, g)
    requires forall h: nat :: GroupAt(u, d, j, h) ==> h <= g
    ensures ExtractSubdomain(u, d) == Some(u[j..j + g + |d|])
  {
    SearchAt(u, d, j, g);
    ExtractFound(u, d, Span(j, g));
  }

  /** The text matched is the span's group followed by the domain. */
  lemma ExtractFound(u: string, d: string, sp: Span)
    requires Search(u, d) == Some(sp)
    ensures ExtractSubdomain(u, d) == Some(u[sp.start..sp.start + sp.group + |d|])
  {
  }

  /** The search finds the match at `j`, with the longest group there. */
  lemma SearchAt(u: string, d: string, j: nat, g: nat)
    requires forall k: nat :: k < j ==> !MatchesAt(u, d, k)
    requires GroupAt(u, d, j, g)
    requires forall h: nat :: GroupAt(u, d, j, h) ==> h <= g
    ensures Search(u, d) == Some(Span(j, g))
  {
    assert MatchesAt(u, d, j);
    var r := Search(u, d);
    assert r.Some?;
    var sp := r.value;
    assert sp.start <= j;
    SpanMatches(u, d, sp);
    assert sp.start == j;
    assert g <= sp.group;
  }

  lemma SpanMatches(u: string, d: string, sp: Span)
    requires sp.group == 0 || GroupAt(u, d, sp.start, sp.group)
    requires OccursAt(u, d, sp.start + sp.group)
    ensures MatchesAt(u, d, sp.start)
  {
    if sp.group > 0 {
      assert GroupAt(u, d, sp.start, sp.group);
    }
  }

  /**
   * Up to a character outside `[a-zA-Z0-9._-]`, with no dot and no first
   * character of the domain before it, the pattern matches nowhere: a group
   * would have to run across that character to reach a dot.
   */
  lemma NoMatchBefore(u: string, d: string, j: nat)
    requires j < |u| && !IsHostChar(u[j]) && |d| > 0
    requires forall k :: 0 <= k <= j ==> u[k] != '.' && u[k] != d[0]
    ensures forall k: nat :: k <= j ==> !MatchesAt(u, d, k)
  {
    forall k: nat | k <= j
      ensures !MatchesAt(u, d, k)
    {
      if k + |d| <= |u| {
        assert u[k..k + |d|][0] == u[k];
      }
      forall g: nat
        ensures !GroupAt(u, d, k, g)
      {
        if 2 <= g && k + g <= |u| && u[k + g - 1] == '.' {
          assert !IsHostChar(u[k..k + g][j - k]);
        }
      }
    }
  }

  /**
   * The listing for `example.com` when the archive rows below the header hold
   * `http://foo.example.com/a`, `http://bar.example.com/b` and
   * `http://foo.example.com/c` in field 2, for any three-character alphanumeric labels
   * `foo` and `bar` with `bar` before `foo` in Python's order: two lines, `bar` first.
   */
  lemma ExampleListing(data: seq<seq<string>>, foo: string, bar: string, a: char, b: char, c: char)
    requires |foo| == 3 && (forall k :: 0 <= k < 3 ==> IsAsciiAlnum(foo[k]))
    requires |bar| == 3 && (forall k :: 0 <= k < 3 ==> IsAsciiAlnum(bar[k]))
    requires Less(bar, foo)
    requires |data| == 4
    requires |data[1]| > 2 && data[1][2] == "http://" + foo + ".example.com/" + [a]
    requires |data[2]| > 2 && data[2][2] == "http://" + bar + ".example.com/" + [b]
    requires |data[3]| > 2 && data[3][2] == "http://" + foo + ".example.com/" + [c]
    ensures Subdomains("example.com", data) == [bar + ".example.com", foo + ".example.com"]
  {
    HostAfterScheme(foo, a);
    HostAfterScheme(bar, b);
    HostAfterScheme(foo, c);
    LessAppend(bar, foo, ".example.com");
    TwoDistinct("example.com", data, bar + ".example.com", foo + ".example.com");
  }

  lemma TwoDistinct(domain: string, data: seq<seq<string>>, x: string, y: string)
    requires |data| == 4 && Less(x, y)
    requires RowMatch(domain, data[1]) == Some(y)
    requires RowMatch(domain, data[2]) == Some(x)
    requires RowMatch(domain, data[3]) == Some(y)
    ensures Subdomains(domain, data) == [x, y]
  {
    ThreeRows(data, (row: seq<string>) => RowMatch(domain, row), x, y);
    SubdomainsIsSortedSet(domain, data, [x, y]);
  }

  /** Rows 1 to 3 giving `y`, `x`, `y` give exactly `x` and `y`. */
  lemma ThreeRows<T>(data: seq<T>, f: T -> Option<string>, x: string, y: string)
    requires |data| == 4
    requires f(data[1]) == Some(y) && f(data[2]) == Some(x) && f(data[3]) == Some(y)
    ensures forall z :: z in [x, y] <==> exists i :: 1 <= i < |data| && f(data[i]) == Some(z)
  {
    forall z
      ensures z in [x, y] <==> exists i :: 1 <= i < |data| && f(data[i]) == Some(z)
    {
      if exists i :: 1 <= i < |data| && f(data[i]) == Some(z) {
        var i :| 1 <= i < |data| && f(data[i]) == Some(z);
        assert i == 1 || i == 2 || i == 3;
      }
    }
  }
}

=== FILE: fetch.dfy ===
/**
 * `fetch_wayback_subdomains`: up to three requests to the archive index, each
 * one classified by what came back, folded into a terminal outcome together
 * with the number of requests made and of sleeps taken.
 */
module Fetcher {
  import opened Wrappers
  import opened Text
  import opened Order
  import opened Extract

  /** The number of attempts (wayback.py:29). */
  const MaxAttempts: nat := 3

  /**
   * What one request turned out to be. `json` is the parsed body, `None` when
   * `response.json()` raised a JSON decode error. `Crashed` stands for any other
   * exception, such as a payload that is not a list of string lists.
   */
  datatype Attempt =
    | RequestFailed
    | Received(text: string, json: Option<seq<seq<string>>>)
    | Crashed

  /** The file written when subdomains are found (wayback.py:52-54). */
  datatype OutputFile = OutputFile(name: string, content: string)

  datatype Outcome =
    | EmptyResponse
    | NoData
    | NoMatches
    | Saved(subdomains: seq<string>, file: OutputFile)
    | JsonDecodeFailed
    | Unexpected

  /** After one attempt: go round the loop again, or return. */
  datatype Step = Retry | Stop(outcome: Outcome)

  /** How the function returned: from inside the loop, or after it (`"All retries failed"`). */
  datatype Ending = Returned(outcome: Outcome) | AllRetriesFailed

  datatype FetchResult = FetchResult(ending: Ending, attempts: nat, sleeps: nat)

  /** The output file's name (wayback.py:52): the domain between `wayback_subs_` and `.txt`. */
  function OutputName(domain: string): (r: string)
    ensures |r| == |domain| + 17
    ensures r[..13] == "wayback_subs_" && r[13..|r| - 4] == domain && r[|r| - 4..] == ".txt"
  {
    "wayback_subs_" + domain + ".txt"
  }

  /** Different domains write different files. */
  lemma OutputNameInjective(d: string, e: string)
    ensures OutputName(d) == OutputName(e) <==> d == e
  {
    if OutputName(d) == OutputName(e) {
      var n := OutputName(d);
      assert d == n[13..|n| - 4] == e;
    }
  }

  /** What the body of the loop does with one attempt. */
  function Classify(domain: string, a: Attempt, decodeErrorRetried: bool): (r: Step)
    ensures r.Retry? <==>
      a.RequestFailed? || (decodeErrorRetried && a.Received? && !IsBlank(a.text) && a.json.None?)
    ensures r.Stop? && r.outcome.Saved? <==>
      a.Received? && !IsBlank(a.text) && a.json.Some? && |a.json.value| > 1
      && Subdomains(domain, a.json.value) != []
    ensures r.Stop? && r.outcome.Saved? ==>
      && r.outcome.subdomains == Subdomains(domain, a.json.value)
      && r.outcome.file == OutputFile(OutputName(domain), Join(r.outcome.subdomains, '\n'))
  {
    match a
    case RequestFailed => Retry
    case Crashed => Stop(Unexpected)
    case Received(text, json) =>
      if IsBlank(text) then Stop(EmptyResponse)
      else match json
        case None => if decodeErrorRetried then Retry else Stop(JsonDecodeFailed)
        case Some(data) =>
          if |data| <= 1 then Stop(NoData)
          else
            var subs := Subdomains(domain, data);
            if |subs| == 0 then Stop(NoMatches)
            else Stop(Saved(subs, OutputFile(OutputName(domain), Join(subs, '\n'))))
  }

  /** How an attempt ends the loop, outcome by outcome. */
  lemma ClassifyStops(domain: string, a: Attempt, decodeErrorRetried: bool)
    ensures Classify(domain, a, decodeErrorRetried) == Stop(EmptyResponse) <==>
      a.Received? && AllSpace(a.text)
    ensures Classify(domain, a, decodeErrorRetried) == Stop(NoData) <==>
      a.Received? && !AllSpace(a.text) && a.json.Some? && |a.json.value| <= 1
    ensures Classify(domain, a, decodeErrorRetried) == Stop(JsonDecodeFailed) <==>
      a.Received? && !AllSpace(a.text) && a.json.None? && !decodeErrorRetried
    ensures Classify(domain, a, decodeErrorRetried) == Stop(NoMatches) <==>
      a.Received? && !AllSpace(a.text) && a.json.Some? && |a.json.value| > 1
      && Subdomains(domain, a.json.value) == []
    ensures Classify(domain, a, decodeErrorRetried) == Stop(Unexpected) <==> a.Crashed?
  {
  }

  /**
   * The loop over the attempts (wayback.py:30) from attempt `i` on, attempt `k`
   * ending in `steps(k)`, given that attempts `0 .. i-1` all went round again,
   * each with its sleep.
   */
  function AttemptLoop(steps: nat -> Step, i: nat): (r: FetchResult)
    requires i <= MaxAttempts
    ensures i <= r.attempts <= MaxAttempts
    ensures r.ending.AllRetriesFailed? <==> forall k: nat :: i <= k < MaxAttempts ==> steps(k).Retry?
    ensures r.ending.AllRetriesFailed? ==> r.attempts == MaxAttempts && r.sleeps == MaxAttempts
    ensures !r.ending.AllRetriesFailed? ==>
      && i < r.attempts
      && r.sleeps == r.attempts - 1
      && steps(r.attempts - 1) == Stop(r.ending.outcome)
      && forall k: nat :: i <= k < r.attempts - 1 ==> steps(k).Retry?
    decreases MaxAttempts - i
  {
    if i == MaxAttempts then FetchResult(AllRetriesFailed, MaxAttempts, MaxAttempts)
    else match steps(i)
      case Retry => AttemptLoop(steps, i + 1)
      case Stop(o) => FetchResult(Returned(o), i + 1, i)
  }

  /**
   * `fetch_wayback_subdomains(domain)`, the network being `net`: attempt `k`
   * gets the answer `net(k)`. When requests' JSON decode error is one of its
   * request exceptions, `decodeErrorRetried` holds and a malformed body is
   * retried like a failed request.
   */
  function Fetch(domain: string, net: nat -> Attempt, decodeErrorRetried: bool): (r: FetchResult)
    ensures FirstStopDecides(domain, net, decodeErrorRetried, r)
  {
    var steps := (k: nat) => Classify(domain, net(k), decodeErrorRetried);
    var r := AttemptLoop(steps, 0);
    FetchLoop(domain, net, decodeErrorRetried, steps, r);
    r
  }

  /**
   * `r` is what the attempts with answers `net(0)`, `net(1)`, … come to: 1 to 3
   * attempts; all three retried exactly when the retries ran out, with a sleep
   * after each; otherwise every attempt before the last went round again, with
   * its sleep, and the last one's outcome is the result.
   */
  ghost predicate FirstStopDecides(domain: string, net: nat -> Attempt, decodeErrorRetried: bool, r: FetchResult) {
    && 1 <= r.attempts <= MaxAttempts
    && (r.ending.AllRetriesFailed? <==>
         forall k: nat :: k < MaxAttempts ==> Classify(domain, net(k), decodeErrorRetried).Retry?)
    && (r.ending.AllRetriesFailed? ==> r.attempts == MaxAttempts && r.sleeps == MaxAttempts)
    && (!r.ending.AllRetriesFailed? ==>
         && r.sleeps == r.attempts - 1
         && Classify(domain, net(r.attempts - 1), decodeErrorRetried) == Stop(r.ending.outcome)
         && forall k: nat :: k < r.attempts - 1 ==> Classify(domain, net(k), decodeErrorRetried).Retry?)
  }

  /** The loop run from the first attempt, each step being the classified answer. */
  lemma FetchLoop(domain: string, net: nat -> Attempt, decodeErrorRetried: bool, steps: nat -> Step, r: FetchResult)
    requires forall k: nat :: steps(k) == Classify(domain, net(k), decodeErrorRetried)
    requires r == AttemptLoop(steps, 0)
    ensures FirstStopDecides(domain, net, decodeErrorRetried, r)
  {
  }

  /**
   * A file is written only with a non-empty, strictly ascending list of
   * subdomains of the pattern's shape; it is named after the domain, its text
   * ends with the domain (no trailing newline), and, for a domain without a
   * newline in it, its lines are exactly the list.
   */
  lemma {:induction false} SavedFile(domain: string, a: Attempt, decodeErrorRetried: bool)
    ensures var step := Classify(domain, a, decodeErrorRetried);
      step.Stop? && step.outcome.Saved? ==>
      && step.outcome.subdomains == Subdomains(domain, a.json.value)
      && step.outcome.file.content == Join(step.outcome.subdomains, '\n')
      && |step.outcome.subdomains| > 0
      && StrictlySorted(step.outcome.subdomains)
      && (forall y :: y in step.outcome.subdomains ==> IsSubdomainOf(y, domain))
      && step.outcome.file.name == "wayback_subs_" + domain + ".txt"
      && EndsWith(step.outcome.file.content, domain)
      && ('\n' !in domain ==> Split(step.outcome.file.content, '\n') == step.outcome.subdomains)
  {
    var step := Classify(domain, a, decodeErrorRetried);
    if step.Stop? && step.outcome.Saved? {
      var data := a.json.value;
      var subs := Subdomains(domain, data);
      assert step.outcome == Saved(subs, OutputFile(OutputName(domain), Join(subs, '\n')));
      RenderedList(domain, data);
    }
  }

  /** The facts about a non-empty subdomain list and the text `"\n".join` makes of it. */
  lemma RenderedList(domain: string, data: seq<seq<string>>)
    ensures var subs := Subdomains(domain, data);
      subs != [] ==>
      && (forall y :: y in subs ==> IsSubdomainOf(y, domain))
      && EndsWith(Join(subs, '\n'), domain)
      && ('\n' !in domain ==> Split(Join(subs, '\n'), '\n') == subs)
  {
    var subs := Subdomains(domain, data);
    SubdomainsFound(domain, data);
    if subs != [] {
      var last := subs[|subs| - 1];
      assert last in subs;
      EndsWithTrans(Join(subs, '\n'), last, domain);
      if '\n' !in domain {
        forall k | 0 <= k < |subs|
          ensures '\n' !in subs[k]
        {
          assert subs[k] in subs;
          NoNewline(subs[k], domain);
        }
        SplitJoin(subs, '\n');
      }
    }
  }

  lemma EndsWithTrans(s: string, m: string, d: string)
    requires EndsWith(s, m) && EndsWith(m, d)
    ensures EndsWith(s, d)
  {
    assert s[|s| - |d|..] == m[|m| - |d|..];
  }

  lemma NoNewline(y: string, domain: string)
    requires IsSubdomainOf(y, domain) && '\n' !in domain
    ensures '\n' !in y
  {
    var p := y[..|y| - |domain|];
    assert y == p + domain;
    assert forall k :: 0 <= k < |p| ==> IsHostChar(p[k]);
  }

  /** Three request exceptions in a row: three attempts, three sleeps, then "All retries failed". */
  lemma ExhaustedAfterThreeFailures(domain: string, net: nat -> Attempt, decodeErrorRetried: bool)
    requires net(0) == RequestFailed && net(1) == RequestFailed && net(2) == RequestFailed
    ensures Fetch(domain, net, decodeErrorRetried) == FetchResult(AllRetriesFailed, 3, 3)
  {
  }

  /**
   * A first answer that is not a request exception (nor a retried decode
   * error) ends the function on that attempt, without a sleep.
   */
  lemma FirstAnswerFinal(domain: string, net: nat -> Attempt, decodeErrorRetried: bool)
    requires Classify(domain, net(0), decodeErrorRetried).Stop?
    ensures Fetch(domain, net, decodeErrorRetried) ==
      FetchResult(Returned(Classify(domain, net(0), decodeErrorRetried).outcome), 1, 0)
  {
  }
}

=== FILE: order.dfy ===
/**
 * Python's ordering of `str` values and the strictly ascending sequences that
 * `sorted(set(...))` produces.
 */
module Order {

  /** Python's `a < b` on strings: code point by code point, a proper prefix first. */
  predicate Less(a: string, b: string)
    decreases |a|
  {
    |b| > 0 && (|a| == 0 || a[0] < b[0] || (a[0] == b[0] && Less(a[1..], b[1..])))
  }

  lemma {:induction false} LessIrreflexive(a: string)
    ensures !Less(a, a)
    decreases |a|
  {
    if |a| > 0 {
      LessIrreflexive(a[1..]);
    }
  }

  lemma {:induction false} LessTransitive(a: string, b: string, c: string)
    requires Less(a, b) && Less(b, c)
    ensures Less(a, c)
    decreases |a|
  {
    if |a| > 0 && a[0] == b[0] && b[0] == c[0] {
      LessTransitive(a[1..], b[1..], c[1..]);
    }
  }

  lemma LessAsymmetric(a: string, b: string)
    requires Less(a, b)
    ensures !Less(b, a)
  {
    if Less(b, a) {
      LessTransitive(a, b, a);
      LessIrreflexive(a);
    }
  }

  /** The same suffix on two strings of equal length keeps their order. */
  lemma {:induction false} LessAppend(a: string, b: string, s: string)
    requires |a| == |b| && Less(a, b)
    ensures Less(a + s, b + s)
    decreases |a|
  {
    if a[0] == b[0] {
      assert (a + s)[1..] == a[1..] + s;
      assert (b + s)[1..] == b[1..] + s;
      LessAppend(a[1..], b[1..], s);
    }
  }

  /** Any two different strings are ordered one way or the other. */
  lemma {:induction false} LessTotal(a: string, b: string)
    ensures a == b || Less(a, b) || Less(b, a)
    decreases |a|
  {
    if |a| > 0 && |b| > 0 && a[0] == b[0] {
      LessTotal(a[1..], b[1..]);
      if a[1..] == b[1..] {
        assert a == [a[0]] + a[1..];
        assert b == [b[0]] + b[1..];
      }
    }
  }

  /** Ascending with no element repeated. */
  predicate StrictlySorted(xs: seq<string>) {
    forall i, j :: 0 <= i < j < |xs| ==> Less(xs[i], xs[j])
  }

  lemma PrependSorted(h: string, t: seq<string>)
    requires StrictlySorted(t)
    requires forall y :: y in t ==> Less(h, y)
    ensures StrictlySorted([h] + t)
  {
    var r := [h] + t;
    forall i, j | 0 <= i < j < |r|
      ensures Less(r[i], r[j])
    {
      assert r[j] == t[j - 1];
      if i > 0 {
        assert r[i] == t[i - 1];
      }
    }
  }

  /** Adds `x` to a strictly ascending sequence unless it is already there. */
  function Insert(xs: seq<string>, x: string): (r: seq<string>)
    requires StrictlySorted(xs)
    ensures StrictlySorted(r)
    ensures forall y :: y in r <==> y in xs || y == x
    ensures |r| == if x in xs then |xs| else |xs| + 1
    decreases |xs|
  {
    if |xs| == 0 then [x]
    else if x == xs[0] then xs
    else if Less(x, xs[0]) then
      InsertFront(xs, x);
      [x] + xs
    else
      var rest := Insert(xs[1..], x);
      InsertBehind(xs, x, rest);
      [xs[0]] + rest
  }

  lemma InsertFront(xs: seq<string>, x: string)
    requires StrictlySorted(xs) && |xs| > 0 && Less(x, xs[0])
    ensures StrictlySorted([x] + xs)
    ensures x !in xs
  {
    forall y | y in xs
      ensures Less(x, y)
    {
      if y != xs[0] {
        LessTransitive(x, xs[0], y);
      }
    }
    if x in xs {
      LessIrreflexive(x);
    }
    PrependSorted(x, xs);
  }

  lemma InsertBehind(xs: seq<string>, x: string, rest: seq<string>)
    requires StrictlySorted(xs) && |xs| > 0 && x != xs[0] && !Less(x, xs[0])
    requires StrictlySorted(rest)
    requires forall y :: y in rest <==> y in xs[1..] || y == x
    ensures StrictlySorted([xs[0]] + rest)
    ensures x in xs <==> x in xs[1..]
  {
    LessTotal(x, xs[0]);
    forall y | y in rest
      ensures Less(xs[0], y)
    {
    }
    PrependSorted(xs[0], rest);
    assert xs == [xs[0]] + xs[1..];
  }

  lemma HeadIsMember(ys: seq<string>)
    requires |ys| > 0
    ensures ys[0] in ys
  {
  }

  /** A set has exactly one strictly ascending listing. */
  lemma {:induction false} SortedListingUnique(xs: seq<string>, ys: seq<string>)
    requires StrictlySorted(xs) && StrictlySorted(ys)
    requires forall y :: y in xs <==> y in ys
    ensures xs == ys
    decreases |xs|
  {
    if |xs| == 0 {
      if |ys| > 0 {
        HeadIsMember(ys);
        assert false;
      }
    } else {
      assert xs[0] in ys;
      assert |ys| > 0;
      if xs[0] != ys[0] {
        assert ys[0] in xs;
        LessAsymmetric(xs[0], ys[0]);
        assert false;
      }
      forall y
        ensures y in xs[1..] <==> y in ys[1..]
      {
        if y in xs[1..] {
          LessIrreflexive(y);
          assert y in ys;
        }
        if y in ys[1..] {
          LessIrreflexive(y);
          assert y in xs;
        }
      }
      SortedListingUnique(xs[1..], ys[1..]);
      assert xs == [xs[0]] + xs[1..];
      assert ys == [ys[0]] + ys[1..];
    }
  }
}

=== FILE: text.dfy ===
/**
 * Strings as the tool handles them: ASCII character classes, `str.strip()`,
 * splitting on and joining with one separator character, and substrings.
 */
module Text {

  predicate IsAsciiLetter(c: char) {
    'a' <= c <= 'z' || 'A' <= c <= 'Z'
  }

  predicate IsAsciiDigit(c: char) {
    '0' <= c <= '9'
  }

  predicate IsAsciiAlnum(c: char) {
    IsAsciiLetter(c) || IsAsciiDigit(c)
  }

  /** The ASCII characters for which Python's `str.isspace()` holds. */
  predicate IsSpace(c: char) {
    c == ' ' || c == '\t' || c == '\n' || c == '\r' || c == '\U{0B}' || c == '\U{0C}'
    || ('\U{1C}' <= c <= '\U{1F}')
  }

  predicate AllSpace(s: string) {
    forall k :: 0 <= k < |s| ==> IsSpace(s[k])
  }

  /** `s` with its leading whitespace removed. */
  function TrimLeft(s: string): (r: string)
    ensures |r| <= |s| && r == s[|s| - |r|..]
    ensures AllSpace(s[..|s| - |r|])
    ensures r == [] || !IsSpace(r[0])
  {
    if |s| > 0 && IsSpace(s[0]) then
      var r := TrimLeft(s[1..]);
      TrimLeftStep(s, r);
      r
    else s
  }

  /** A leading space cut off before the rest is trimmed. */
  lemma TrimLeftStep(s: string, r: string)
    requires |s| > 0 && IsSpace(s[0])
    requires |r| <= |s| - 1 && r == s[1..][|s| - 1 - |r|..]
    requires AllSpace(s[1..][..|s| - 1 - |r|])
    ensures r == s[|s| - |r|..]
    ensures AllSpace(s[..|s| - |r|])
  {
    var n := |s| - |r|;
    assert s[1..][n - 1..] == s[n..];
    forall k | 0 <= k < n
      ensures IsSpace(s[..n][k])
    {
      if k > 0 {
        assert s[..n][k] == s[1..][..n - 1][k - 1];
      }
    }
  }

  /** `s` with its trailing whitespace removed. */
  function TrimRight(s: string): (r: string)
    ensures |r| <= |s| && r == s[..|r|]
    ensures AllSpace(s[|r|..])
    ensures r == [] || !IsSpace(r[|r| - 1])
  {
    if |s| > 0 && IsSpace(s[|s| - 1]) then
      var r := TrimRight(s[..|s| - 1]);
      TrimRightStep(s, r);
      r
    else s
  }

  /** A trailing space cut off before the rest is trimmed. */
  lemma TrimRightStep(s: string, r: string)
    requires |s| > 0 && IsSpace(s[|s| - 1])
    requires |r| <= |s| - 1 && r == s[..|s| - 1][..|r|]
    requires AllSpace(s[..|s| - 1][|r|..])
    ensures r == s[..|r|]
    ensures AllSpace(s[|r|..])
  {
    assert s[..|s| - 1][..|r|] == s[..|r|];
    forall k | 0 <= k < |s| - |r|
      ensures IsSpace(s[|r|..][k])
    {
      if k < |s| - 1 - |r| {
        assert s[|r|..][k] == s[..|s| - 1][|r|..][k];
      }
    }
  }

  /** `r` is what is left of `s` once `i` leading and some trailing whitespace are cut off. */
  predicate StrippedAt(s: string, r: string, i: nat) {
    i + |r| <= |s| && r == s[i..i + |r|] && AllSpace(s[..i]) && AllSpace(s[i + |r|..])
  }

  /** Python's `str.strip()` with no argument, for ASCII whitespace. */
  function Strip(s: string): (r: string)
    ensures r == [] || (!IsSpace(r[0]) && !IsSpace(r[|r| - 1]))
    ensures r == [] <==> AllSpace(s)
  {
    var left := TrimLeft(s);
    var r := TrimRight(left);
    StripEmpty(s, left, r);
    r
  }

  /** `s.strip()` is `s` with only whitespace cut off at either end. */
  lemma StripIsSlice(s: string)
    ensures exists i: nat :: StrippedAt(s, Strip(s), i)
  {
    StripAt(s);
  }

  /** The leading whitespace cut off is what `TrimLeft` cuts off. */
  lemma StripAt(s: string)
    ensures StrippedAt(s, Strip(s), |s| - |TrimLeft(s)|)
  {
    var left := TrimLeft(s);
    StripWitness(s, |s| - |left|, left, TrimRight(left));
  }

  lemma StripWitness(s: string, i: nat, left: string, r: string)
    requires i <= |s| && left == s[i..] && AllSpace(s[..i])
    requires |r| <= |left| && r == left[..|r|] && AllSpace(left[|r|..])
    ensures StrippedAt(s, r, i)
  {
    assert s[i..i + |r|] == r;
    assert s[i + |r|..] == left[|r|..];
  }

  lemma StripEmpty(s: string, left: string, r: string)
    requires left == TrimLeft(s) && r == TrimRight(left)
    ensures r == [] <==> AllSpace(s)
  {
    var i := |s| - |left|;
    if r == [] {
      assert left[|r|..] == left;
      assert left == [];
      assert s == s[..i];
    } else {
      assert left[0] == s[i];
    }
  }

  predicate IsBlank(s: string) {
    Strip(s) == []
  }

  /** The index of the first `c` in `s`, or `|s|` when there is none. */
  function IndexOf(s: string, c: char): (i: nat)
    ensures i <= |s|
    ensures i < |s| ==> s[i] == c
    ensures forall k :: 0 <= k < i ==> s[k] != c
  {
    if |s| == 0 then 0
    else if s[0] == c then 0
    else 1 + IndexOf(s[1..], c)
  }

  /** Python's `s.split(sep)` for a one-character separator. */
  function Split(s: string, sep: char): (parts: seq<string>)
    ensures |parts| >= 1
    decreases |s|
  {
    var i := IndexOf(s, sep);
    if i == |s| then [s]
    else [s[..i]] + Split(s[i + 1..], sep)
  }

  /** A string splits into one part, itself, exactly when the separator does not occur in it. */
  lemma SplitSingle(s: string, sep: char)
    ensures |Split(s, sep)| == 1 <==> sep !in s
    ensures sep !in s ==> Split(s, sep) == [s]
  {
    var i := IndexOf(s, sep);
    if i < |s| {
      SplitCons(s, sep, i);
    }
  }

  /** No part of a split holds the separator. */
  lemma {:induction false} SplitPartsFree(s: string, sep: char)
    ensures forall k :: 0 <= k < |Split(s, sep)| ==> sep !in Split(s, sep)[k]
    decreases |s|
  {
    var i := IndexOf(s, sep);
    if i < |s| {
      var rest := s[i + 1..];
      SplitCons(s, sep, i);
      SplitPartsFree(rest, sep);
      assert forall k :: 0 <= k < i ==> s[..i][k] == s[k];
    } else {
      SplitSingle(s, sep);
    }
  }

  /** Python's `sep.join(parts)` for a one-character separator. */
  function Join(parts: seq<string>, sep: char): (s: string)
    ensures |parts| > 0 ==> EndsWith(s, parts[|parts| - 1])
  {
    if |parts| == 0 then []
    else if |parts| == 1 then parts[0]
    else
      var rest := Join(parts[1..], sep);
      assert parts[1..][|parts| - 2] == parts[|parts| - 1];
      parts[0] + [sep] + rest
  }

  predicate EndsWith(s: string, p: string) {
    |p| <= |s| && s[|s| - |p|..] == p
  }

  /** `p` occurs in `s` starting at index `i`. */
  predicate OccursAt(s: string, p: string, i: nat) {
    i + |p| <= |s| && s[i..i + |p|] == p
  }

  predicate IsSubstring(p: string, s: string) {
    exists i: nat :: i <= |s| && OccursAt(s, p, i)
  }

  /** Joining the pieces of a split gives back the original string. */
  lemma {:induction false} JoinSplit(s: string, sep: char)
    ensures Join(Split(s, sep), sep) == s
    decreases |s|
  {
    var i := IndexOf(s, sep);
    if i < |s| {
      var rest := s[i + 1..];
      var tail := Split(rest, sep);
      JoinSplit(rest, sep);
      SplitCons(s, sep, i);
      JoinCons(s[..i], tail, sep);
      Reassemble(s, i);
    }
  }

  lemma Reassemble(s: string, i: nat)
    requires i < |s|
    ensures s == s[..i] + [s[i]] + s[i + 1..]
  {
  }

  lemma SplitCons(s: string, sep: char, i: nat)
    requires i == IndexOf(s, sep) && i < |s|
    ensures Split(s, sep) == [s[..i]] + Split(s[i + 1..], sep)
  {
  }

  lemma JoinCons(head: string, tail: seq<string>, sep: char)
    requires |tail| >= 1
    ensures Join([head] + tail, sep) == head + [sep] + Join(tail, sep)
  {
    assert ([head] + tail)[1..] == tail;
  }

  /** Splitting a join of separator-free pieces gives back the pieces. */
  lemma {:induction false} SplitJoin(parts: seq<string>, sep: char)
    requires |parts| >= 1
    requires forall k :: 0 <= k < |parts| ==> sep !in parts[k]
    ensures Split(Join(parts, sep), sep) == parts
    decreases |parts|
  {
    if |parts| > 1 {
      var head := parts[0];
      var tail := parts[1..];
      var rest := Join(tail, sep);
      JoinCons(head, tail, sep);
      assert parts == [head] + tail;
      var s := head + [sep] + rest;
      FirstSeparator(head, sep, rest);
      SplitCons(s, sep, |head|);
      SplitJoin(tail, sep);
    }
  }

  /** The first separator in `head + [sep] + rest` is the one after `head`. */
  lemma FirstSeparator(head: string, sep: char, rest: string)
    requires sep !in head
    ensures var s := head + [sep] + rest;
      IndexOf(s, sep) == |head| && s[..|head|] == head && s[|head| + 1..] == rest
  {
    var s := head + [sep] + rest;
    assert s[|head|] == sep;
    assert forall k :: 0 <= k < |head| ==> s[k] == head[k];
  }
}

=== FILE: validate.dfy ===
/**
 * `validate_domain`: the shape check every domain passes before it is queried.
 * The pattern `^(?:[a-zA-Z0-9-]+\.)+[a-zA-Z]{2,}$` is read two ways here, once
 * as the regular expression says it and once over the dot-separated labels,
 * and the two readings are proved to agree.
 */
module Validate {
  import opened Wrappers
  import opened Text

  /** `[a-zA-Z0-9-]` */
  predicate IsLabelChar(c: char) {
    IsAsciiAlnum(c) || c == '-'
  }

  /** `[a-zA-Z0-9-]+` */
  predicate IsLabel(s: string) {
    |s| > 0 && forall k :: 0 <= k < |s| ==> IsLabelChar(s[k])
  }

  /** `[a-zA-Z]{2,}` */
  predicate IsTopLabel(s: string) {
    |s| >= 2 && forall k :: 0 <= k < |s| ==> IsAsciiLetter(s[k])
  }

  /**
   * The whole of `s` matches `(?:[a-zA-Z0-9-]+\.)+[a-zA-Z]{2,}`: a label, a dot,
   * and then either the top label or the pattern again.
   */
  ghost predicate MatchesPattern(s: string)
    decreases |s|
  {
    exists i :: PatternAt(s, i)
  }

  /** The first group of the pattern ends with the dot at `i`, and the rest of `s` matches what follows it. */
  ghost predicate PatternAt(s: string, i: int)
    decreases |s|, 0
  {
    0 < i < |s| && s[i] == '.' && IsLabel(s[..i])
    && (IsTopLabel(s[i + 1..]) || MatchesPattern(s[i + 1..]))
  }

  /** At least two labels, every label but the last one a `[a-zA-Z0-9-]+`, the last one a `[a-zA-Z]{2,}`. */
  predicate HasDomainShape(labels: seq<string>) {
    && |labels| >= 2
    && (forall k :: 0 <= k < |labels| - 1 ==> IsLabel(labels[k]))
    && IsTopLabel(labels[|labels| - 1])
  }

  predicate WellFormed(s: string) {
    HasDomainShape(Split(s, '.'))
  }

  /** The label reading and the regular-expression reading accept the same strings. */
  lemma {:induction false} WellFormedIffPattern(s: string)
    ensures WellFormed(s) <==> MatchesPattern(s)
    decreases |s|
  {
    var i := IndexOf(s, '.');
    if i == |s| {
      assert !MatchesPattern(s);
    } else {
      var head, rest := s[..i], s[i + 1..];
      var tail := Split(rest, '.');
      SplitCons(s, '.', i);
      SplitSingle(rest, '.');
      WellFormedIffPattern(rest);
      ShapeCons(head, tail);
      if |tail| == 1 {
        assert tail == [rest];
      } else {
        TopLabelHasNoDot(rest);
      }
      PatternStep(s, i);
    }
  }

  lemma TopLabelHasNoDot(t: string)
    ensures IsTopLabel(t) ==> '.' !in t
  {
    if IsTopLabel(t) {
      assert forall k :: 0 <= k < |t| ==> t[k] != '.';
    }
  }

  /** Peeling the first label off a label list. */
  lemma ShapeCons(head: string, tail: seq<string>)
    requires |tail| >= 1
    ensures HasDomainShape([head] + tail) <==>
      IsLabel(head) && (if |tail| == 1 then IsTopLabel(tail[0]) else HasDomainShape(tail))
  {
    var labels := [head] + tail;
    assert labels[0] == head;
    assert forall k :: 1 <= k < |labels| ==> labels[k] == tail[k - 1];
    if IsLabel(head) && (if |tail| == 1 then IsTopLabel(tail[0]) else HasDomainShape(tail)) {
      forall k | 0 <= k < |labels| - 1
        ensures IsLabel(labels[k])
      {
        if k > 0 {
          assert labels[k] == tail[k - 1];
        }
      }
    }
    if HasDomainShape(labels) && |tail| > 1 {
      forall k | 0 <= k < |tail| - 1
        ensures IsLabel(tail[k])
      {
        assert tail[k] == labels[k + 1];
      }
    }
  }

  /** A dot with no dot before it is the first one. */
  lemma FirstDot(s: string, j: nat)
    requires j < |s| && s[j] == '.'
    requires forall k :: 0 <= k < j ==> s[k] != '.'
    ensures IndexOf(s, '.') == j
  {
  }

  /** The only dot that can end the first group of the pattern is the first dot. */
  lemma PatternStep(s: string, i: nat)
    requires i < |s| && i == IndexOf(s, '.')
    ensures MatchesPattern(s) <==>
      IsLabel(s[..i]) && (IsTopLabel(s[i + 1..]) || MatchesPattern(s[i + 1..]))
  {
    if MatchesPattern(s) {
      PatternAtFirstDot(s, i);
    }
    if IsLabel(s[..i]) && (IsTopLabel(s[i + 1..]) || MatchesPattern(s[i + 1..])) {
      assert PatternAt(s, i);
    }
  }

  /** A match of the pattern splits at the first dot. */
  lemma {:induction false} PatternAtFirstDot(s: string, i: nat)
    requires i < |s| && i == IndexOf(s, '.')
    requires MatchesPattern(s)
    ensures IsLabel(s[..i]) && (IsTopLabel(s[i + 1..]) || MatchesPattern(s[i + 1..]))
  {
    var j :| PatternAt(s, j);
    LabelHasNoDot(s, j);
    FirstDot(s, j);
  }

  /** A label has no dot in it. */
  lemma LabelHasNoDot(s: string, j: nat)
    requires j <= |s| && IsLabel(s[..j])
    ensures forall k :: 0 <= k < j ==> s[k] != '.'
  {
    forall k | 0 <= k < j
      ensures s[k] != '.'
    {
      assert s[k] == s[..j][k] && IsLabelChar(s[..j][k]);
    }
  }

  /**
   * `re.match(pattern, s)` for the anchored pattern. Python's `$` also matches
   * just before a final newline, so `s` followed by one `"\n"` is accepted too.
   * The rejected string is carried back with the failure.
   */
  function ValidateDomain(s: string): (r: Result<string, string>)
    ensures r.Success? <==>
      MatchesPattern(s) || (|s| > 0 && s[|s| - 1] == '\n' && MatchesPattern(s[..|s| - 1]))
    ensures r.Success? ==> r.value == s
    ensures r.Failure? ==> r.error == s
  {
    CheckAgrees(s);
    Check(s)
  }

  /** The label reading of `s`, and of `s` without its last character, agree with the pattern. */
  lemma CheckAgrees(s: string)
    ensures WellFormed(s) <==> MatchesPattern(s)
    ensures |s| > 0 ==> (WellFormed(s[..|s| - 1]) <==> MatchesPattern(s[..|s| - 1]))
  {
    WellFormedIffPattern(s);
    if |s| > 0 {
      WellFormedIffPattern(s[..|s| - 1]);
    }
  }

  function Check(s: string): Result<string, string> {
    if WellFormed(s) || (|s| > 0 && s[|s| - 1] == '\n' && WellFormed(s[..|s| - 1]))
    then Success(s)
    else Failure(s)
  }

  /** A string with no trailing whitespace is accepted exactly when it has the domain shape. */
  lemma ValidateWithoutTrailingSpace(s: string)
    requires s == [] || !IsSpace(s[|s| - 1])
    ensures ValidateDomain(s).Success? <==> MatchesPattern(s)
    ensures ValidateDomain(s).Success? <==> HasDomainShape(Split(s, '.'))
  {
    WellFormedIffPattern(s);
  }
}

=== FILE: wrappers.dfy ===
/** Failure-carrying values used across the model. */
module Wrappers {

  /** A value that may be absent: a regular-expression search that found nothing, a row without a match. */
  datatype Option<+T> = None | Some(value: T)

  /** Either an accepted value or the reason for rejecting it. */
  datatype Result<+T, +E> = Success(value: T) | Failure(error: E)
}
